=== FILE: README.md ===
# Graduation countdown: verified model of the day arithmetic and notes core

The application shows one box for each day from the first visit to the graduation deadline
(1 June 2027). Each box is marked as past ("done") or as today, and the user can attach notes
to any day. This project models the application's non-DOM core in Dafny and proves its
properties:

- **Calendar days** (`CivilDays`, `civil_days.dfy`). A day is a proleptic-Gregorian
  `Date(year, month, day)` with a day number. `DaysBetween` follows the source: it takes the
  millisecond difference of two midnights, divides by `DAY_MS` and rounds the way `Math.round`
  does. It is proved to equal the exact difference of day numbers. `ToStartOfDay` maps a
  wall-clock `Moment` to the one midnight at or before it and less than a day before it.
  Comparing days by day number is proved to agree with comparing `(year, month, day)`
  lexicographically.
- **Day keys** (`DayKeys`, `day_keys.dfy`). `FormatDateKey` produces the `YYYY-MM-DD` key.
  `ParseDateKey` splits on `-` and reads numbers, with `Number` and the `Date` constructor's
  years-0-to-99 rule. The two are proved to round-trip for years from 100 on.
- **Timeline** (`Timeline`, `timeline.dfy`). `BuildTimeline` is a counting loop. It builds the
  consecutive days of the half-open interval `[start, end)`.
- **Countdown start** (`CountdownStart`, `countdown_start.dfy`). `getCountdownStart` is modelled
  as a decision on (today, deadline, stored key). It returns the start day and the key to write
  back, if any.
- **Notes** (`Notes`, `notes.dfy`). This covers the line-normalisation pipeline of the save
  handler, the notes map, and the `NotesEditor` class. The class holds the map and
  `currentEditDateKey`, which open, close, save and clear update in place.
- **Live state** (`LiveState`, `live_state.dfy`). This covers the boxes (key plus the with-note,
  done and today classes), the per-box classification, the remaining-day count and heading, and
  the refresh loop over an array of boxes.

`Wrappers` (`wrappers.dfy`) holds `Option`, used for `null`, `NaN` and absent storage entries.
`TextUtil` (`text_util.dfy`) models the JavaScript string built-ins the core relies on: `split`,
`join`, `String(n)`, `Number(s)` on digit strings, `padStart` and `trim`.

Storage and the clock are parameters and results. `ResolveStart` takes the stored start key as
an `Option<string>` and returns the key to write. `NotesEditor` is constructed from the decoded
notes entry. `HandleSave` and `HandleClear` return the map they persist. `UpdateLiveState`
takes the current `Moment`.

Points of the code's behaviour worth knowing:

- On a missing or rejected stored start key, the code falls back to **today**, not to the
  earlier of today and the deadline. `CountdownStart.LateStartIsRewritten` shows the
  consequence: a key written after the deadline is rejected on every later visit and written
  again.
- Re-saving the editor's text is not always a fixed point of the normalisation. A row that
  still begins with a marker loses that marker on the next save (`Notes.ResaveStripsNestedMarker`).
  Re-saving is a fixed point for rows that do not start with a marker (`Notes.NormalizeJoin`,
  `Notes.ResaveUnchanged`).
- The first-visit example on 10 January 2025 has 872 days to the deadline
  (`CountdownStart.FirstVisitExample`).

## Model

| member | source | states |
|---|---|---|
| CivilDays.ToStartOfDay | app.js:244-246 | the result is a valid day whose midnight is at or before `now` and less than one day before it |
| CivilDays.StartOfDayUnique | app.js:244-246 | any valid day whose midnight is within a day before `now` is the start of day of `now` |
| CivilDays.RoundExactMultiple | app.js:249 | `Math.round` of a whole number of days' worth of milliseconds, divided by `DAY_MS`, is exactly that number of days |
| CivilDays.DaysBetween | app.js:248-250 | the rounded millisecond difference of two midnights equals the difference of their day numbers |
| CivilDays.RoundDiv | app.js:249 | `Math.round(n / q)`: the result r is the integer nearest to n / q, halves rounded up (2qr - q <= 2n < 2qr + q) |
| CivilDays.MaxZero | app.js:217 | `Math.max(0, n)` (also at app.js line 64) is not negative, at least n, and either 0 or n |
| CivilDays.Next | app.js:221-223 | the day after a valid day is valid and has the next day number |
| CivilDays.AddDays | app.js:221-223 | adding n days to a valid day gives a valid day whose day number is n greater |
| CivilDays.AddDaysBetween | app.js:216-223 | adding `daysBetween(a, b)` days to `a` gives `b` when `a` is not after `b` |
| CivilDays.LexBeforeIsBefore | app.js:79 | comparing two days by time value (`<`) agrees with comparing (year, month, day) lexicographically, in both directions |
| CivilDays.DayNumberInjective | app.js:252-258 | two valid days have the same day number if and only if they are the same day |
| CivilDays.IsSameDay | app.js:252-258 | comparing year, month and day holds exactly when the two days are equal |
| CivilDays.SameDayIffNoDaysBetween | app.js:248-258 | `isSameDay(a, b)` holds if and only if `daysBetween(a, b)` is 0 |
| TextUtil.Split | app.js:136 | `split` yields at least one piece |
| TextUtil.SplitPiecesFree | app.js:136 | no piece of a `split` contains the separator |
| TextUtil.SplitJoin | app.js:118 | splitting the `join` of separator-free pieces gives back the pieces |
| TextUtil.Join | app.js:118 | `join` of no pieces is empty; otherwise the text starts with the first piece and ends with the last, and with two or more pieces the separator follows the first piece |
| TextUtil.NatToString | app.js:261 | `String(n)` is a non-empty run of digits without a leading zero |
| TextUtil.DigitsOfNat | app.js:268 | `Number(String(n))` is n |
| TextUtil.PadStartZero | app.js:262 | `padStart(w, "0")` puts exactly w minus the length zeros in front of a shorter string and leaves a string of length at least w alone; the result has length max(w, length) |
| TextUtil.Trim | app.js:137 | `trim` returns the slice of its input that starts after the leading white space; everything before and after that slice is white space, and the slice neither starts nor ends with white space |
| TextUtil.TrimAfterTrimStart | app.js:137 | removing leading white space first does not change what `trim` returns |
| DayKeys.YearText | app.js:261 | for a non-negative year, the text is a digit run whose value is the year and which has no leading zero; for a negative year, it is '-' followed by such a run for the year's absolute value |
| TextUtil.CanonicalDigits | app.js:261 | a digit run without a leading zero is String of its value, so the YearText clauses fix the year text |
| DayKeys.ParseNumber | app.js:268 | a part reads as a number exactly when it is a non-empty run of digits, and the number is the value of those digits |
| DayKeys.FullYear | app.js:269 | the `Date` constructor takes a year y from 0 to 99 as 1900 + y and keeps every other year unchanged |
| DayKeys.ParseDateKey | app.js:267-270 | a decoded day is valid; it comes from a value whose first three '-'-separated parts are digit runs, and it is the day they name, the year passed through the years-0-to-99 rule |
| DayKeys.ParseRejects | app.js:267-270 | decoding fails when the value has fewer than three '-'-separated parts, when one of the first three parts is not a digit run, or when the month or the day is out of range |
| DayKeys.Pad2 | app.js:262-263 | the padded text is a run of at least two digits whose value is n, exactly two for n below 100; a single digit gets one '0' in front, and a number of two or more digits is written unchanged |
| DayKeys.FormatDateKey | app.js:260-265 | for a non-negative year the key splits on '-' into exactly three parts: the year's text, the padded month (1-based) and the padded day |
| DayKeys.KeyFormat | app.js:260-265 | the key is the year's text, '-', two month digits (1-based), '-', two day digits |
| DayKeys.ParseKeyParts | app.js:267-270 | a key of three digit runs decodes to the day they name, the year passed through the years-0-to-99 rule, when month and day are in range |
| DayKeys.ParseAccepts | app.js:267-270 | a value whose first three '-'-separated parts are digit runs naming a valid month and day decodes to that day, whatever parts follow |
| DayKeys.ExtraPartsIgnored | app.js:268 | "2025-01-10-x" decodes to 10 January 2025: parts after the third are ignored |
| DayKeys.ParseFormat | app.js:260-270 | decoding the key of a valid day with year at least 100 gives back that day |
| DayKeys.KeysDistinct | app.js:260-265 | two such days have the same key if and only if they are the same day |
| DayKeys.TwoDigitYearShifts | app.js:269 | the key of 31 January of year 99 decodes to 31 January 1999, so the round trip needs years from 100 on |
| DayKeys.NegativeKeyParts | app.js:261-268 | a key whose year text starts with '-' splits into an empty part followed by the year's digits, the month and the day |
| DayKeys.NegativeYearKeyRejected | app.js:260-270 | the key of a day in a negative year splits into four parts with an empty first part and does not decode |
| Timeline.BuildTimeline | app.js:216-227 | the list has `max(0, daysBetween(start, end))` days and is empty when end is not after start; element i is i days after start; element 0 is start; each element is the day after the previous one; every element lies in `[start, end)`; end is never included |
| Timeline.TimelineShape | app.js:216-227 | the first `max(0, daysBetween(start, end))` days counted from start have the shape listed for BuildTimeline |
| Timeline.TimelineCovers | app.js:216-227 | every day of `[start, end)` is in the list, at the index equal to its distance from start |
| CountdownStart.ResolveStart | app.js:200-214 | nothing is written if and only if the stored key is present, non-empty, decodes, and is not after the deadline; the start is then the decoded day; otherwise the start is today and today's key is written |
| CountdownStart.StartIsStoredOrToday | app.js:205-213 | the start is either today or the stored day |
| CountdownStart.StartIsStable | app.js:203-213 | for a day from year 100 on, a start key written on a day not after the deadline is read back on any later visit as the same day, and nothing is written again |
| CountdownStart.LateStartIsRewritten | app.js:207-213 | for a day from year 100 on, a start key written on a day after the deadline is rejected on every later visit, and that visit's day is written instead |
| CountdownStart.FirstVisitExample | app.js:200-214 | a first visit on 2025-01-10 starts there, writes "2025-01-10", and has 872 days to the 2027-06-01 deadline |
| CountdownStart.FirstVisitKey | app.js:260-265 | the key of 10 January 2025 is "2025-01-10" |
| CountdownStart.FirstVisitDays | app.js:248-250 | there are 872 days from 10 January 2025 to 1 June 2027 |
| Notes.StripMarker | app.js:137 | for a line starting with '-', '*' or '•' the result is a suffix of the line shorter than it, everything between the marker and the result is white space, and the result does not start with white space; any other line is unchanged |
| Notes.CleanLine | app.js:137 | a cleaned line has no surrounding white space; it is either empty or a clean row when the line has no line break |
| Notes.CleanLineIsTrim | app.js:137 | a cleaned line is the trimmed text after a first-column marker, or the whole line trimmed when it does not start with a marker |
| Notes.CleanLines | app.js:137 | the map step cleans each line in place, keeping the count |
| Notes.KeepNonEmpty | app.js:138 | `filter(Boolean)` keeps only non-empty strings and never lengthens the list |
| Notes.KeepNonEmptyAppend | app.js:138 | filtering distributes over concatenation, so the input order is kept |
| Notes.NormalizeNote | app.js:135-138 | every saved row is non-empty, has no line break and no surrounding white space; there are at most as many rows as input lines |
| Notes.NormalizeLine | app.js:135-138 | a text without line breaks saves as its single cleaned line, or as no row when that cleaned line is empty |
| Notes.SplitAppend | app.js:136 | splitting two texts joined by a separator gives the pieces of the first followed by the pieces of the second |
| Notes.NormalizeAppend | app.js:135-138 | the rows of two texts joined by a line break are the rows of the first followed by the rows of the second |
| Notes.NormalizeEmpty | app.js:135-143 | an empty editor yields no rows |
| Notes.BlankInputDeletes | app.js:135-144 | input whose every line is blank or only a marker removes the key on save |
| Notes.NormalizeJoin | app.js:117-138 | re-saving the joined text of clean rows that do not start with a marker gives back the same rows |
| Notes.ResaveUnchanged | app.js:117-144 | opening a day's notes and saving the shown text unchanged leaves the map unchanged, for such rows |
| Notes.ResaveStripsNestedMarker | app.js:137 | for any clean row x, "- - x" is saved as "- x" and re-saved as "x" |
| Notes.IndentedMarkerKept | app.js:137 | only a marker in the first column is removed: for any clean row x, "  - x" is cleaned to "- x" |
| Notes.ReadNotes | app.js:229-238 | loading yields the decoded object, or the empty map when the entry is absent, unparsable or not an object |
| Notes.SaveEntry | app.js:140-144 | the key is present afterwards if and only if there are rows, and then holds the rows; no other key changes; the "every key holds a non-empty list" invariant is kept |
| Notes.ClearEntry | app.js:155 | the key is absent afterwards; no other key changes; the invariant is kept |
| Notes.EntryOf | app.js:117 | `notes[key] || []` is the stored list when the key is present and the empty list otherwise |
| Notes.HasNote | app.js:98 | the with-note flag holds exactly when the key's list, read as `notes[key] || []`, is non-empty |
| Notes.HasNoteAfterEdit | app.js:98 | on a map with the invariant, the with-note flag is key membership; after a save it holds if and only if rows were left; after a clear it is off |
| Notes.NotesEditor.constructor | app.js:26-27 | start-up state: the notes read from storage, and no key being edited |
| Notes.NotesEditor.IsEditing | app.js:133 | a key is being edited exactly when the edited key is neither null nor the empty string |
| Notes.NotesEditor.OpenEditor | app.js:112-124 | the edited key becomes the day's key; the map is unchanged; the editor shows the day's lines joined by line breaks (none when absent) |
| Notes.NotesEditor.CloseEditor | app.js:126-130 | the edited key becomes null; the map is unchanged |
| Notes.NotesEditor.HandleSave | app.js:132-150 | when a key is being edited, the map becomes `SaveEntry` of the normalised input, is persisted, and the edited key becomes null; otherwise nothing changes and nothing is persisted |
| Notes.NotesEditor.HandleClear | app.js:152-160 | when a key is being edited, the map becomes `ClearEntry` of that key, is persisted, and the edited key becomes null; otherwise nothing changes |
| LiveState.Classify | app.js:76-83 | done if and only if the box's day is before today; today if and only if it is the same day; never both; an undecodable key gets neither |
| LiveState.Remaining | app.js:64 | the remaining count is 0 if and only if the deadline is not after today; otherwise adding it to today reaches the deadline |
| LiveState.Headline | app.js:64-70 | "graduation day has come" is shown if and only if today is not before the deadline; otherwise the shown count is `daysBetween(today, deadline)` and is positive |
| LiveState.RenderBoxes | app.js:87-110 | a fresh array with one box per timeline day; box i is the new box for the key of day i |
| LiveState.BoxesFor | app.js:90-108 | filling the grid box by box gives, at every index, the new box for that index's key |
| LiveState.FreshBox | app.js:91-100 | a new box carries its key, has the with-note flag exactly when the key's list is non-empty, and is neither done nor today |
| LiveState.RefreshBox | app.js:75-83 | one refreshed box keeps its key and with-note flag; its done and today classes are the classification of its key |
| LiveState.UpdateLiveState | app.js:62-85 | the heading is derived from today's start of day; each box keeps its key and with-note flag, and its done and today classes are exactly the classification of its key |
| LiveState.RefreshTwice | app.js:36 | two refreshes on the same day give the same heading and leave the boxes as a single refresh would |
| LiveState.BoxOfDay | app.js:74-84 | for a day from year 100 on, a box built from the day is done if and only if the day is past, today if and only if it is today, and unmarked if and only if it is still to come |
| LiveState.DoneBoxesAndRemaining | app.js:62-84 | with today inside the countdown, the done boxes are exactly the first `daysBetween(start, today)` timeline boxes, and the remaining count is the number of the other boxes |

## Left out

- DOM work is not modelled: element lookups, `innerHTML`, event listeners, focus handling, the
  modal's visibility and the `renderStatic` texts. The box count shown there is the length of the
  timeline.
- Tooltips (`showTooltip`, `hideTooltip`, `positionTooltip`) and the resize listener are not
  modelled. They are text for display and floating-point pixel layout.
- `Intl.DateTimeFormat` long-date formatting is not modelled. It is a foreign locale library.
- `localStorage` and `JSON.parse`/`JSON.stringify` are not modelled. Stored values are inputs
  (`Option<string>`, or `StoredNotes` for the already-decoded notes entry). Writes are results
  (the key to write, or the map to persist).
- The `setInterval`/`setTimeout` scheduling is not modelled. `RefreshTwice` states what two
  timer ticks on the same day do.
- `HandleSave` and `HandleClear` do not themselves repeat the box re-render and refresh that
  follow a save. Those are `RenderBoxes` and `UpdateLiveState`, applied by the caller.
- Time zones, daylight-saving drift and the 1970 epoch offset are not modelled. Every day's
  midnight is exactly `DAY_MS` after the previous one, so rounding in `daysBetween` is exact.
- DayKeys.ParseDateKey: the `Date` constructor's rollover of out-of-range months and days is
  not modelled. "2025-13-01" is January 2026 in the source; here such a key decodes to `None`.
- DayKeys.ParseDateKey: `Number` is modelled only on non-empty digit strings. An empty part
  (which `Number` reads as 0), signs, surrounding spaces, hexadecimal and exponent forms decode
  to `None` here.
- DayKeys.ParseFormat: the round trip is stated only for years from 100 on. Years 0 to 99 move
  into the 1900s (`TwoDigitYearShifts`). The key of a day in a negative year, such as "-5-01-01",
  splits into four parts with an empty first part. The source destructures the first three,
  reads the empty part as 0 and builds `new Date(0, 4, 1)`, which is 1 May 1900. The model
  decodes such a key to `None` (`NegativeYearKeyRejected`).
- Notes.ReadNotes: stored entries are taken to be arrays of strings. The `Array.isArray` check
  of the with-note flag and `join` on non-array values are not modelled. A stored JSON array
  (also an `object` in JavaScript) is represented by `Object(map[])`, because its day-key
  lookups find nothing. What `JSON.stringify` keeps of such an array on the next save is not
  modelled.
- LiveState.RenderBoxes: the day keys of the whole timeline are computed before the boxes are
  created, where the source computes each key inside its `forEach`. The boxes are the same.
- Notes.NotesEditor.OpenEditor: a non-array truthy entry, on which `join` would throw, is not
  modelled, because entries are lists here.

=== FILE: civil_days.dfy ===
/**
  Calendar-day arithmetic of the countdown (app.js: toStartOfDay, daysBetween,
  isSameDay and the day-by-day stepping that buildTimeline asks of the Date object).

  A calendar day is a (year, month, day) triple of the proleptic Gregorian calendar,
  the one JavaScript's Date uses. Months are 1-based here; the source's getMonth()
  is 0-based and formatDateKey adds 1, which the key encoder in DayKeys does implicitly.
  Each valid day has an integer day number (0 is 0001-01-01); the local time value of
  its midnight is that number times the length of a day in milliseconds.
*/
module CivilDays {

  /** Milliseconds in a day (DAY_MS). */
  const DayMs: int := 24 * 60 * 60 * 1000

  datatype Date = Date(year: int, month: int, day: int)

  /** A local wall-clock instant: a calendar day and the milliseconds elapsed since its midnight. */
  datatype Moment = Moment(date: Date, msOfDay: int)

  predicate IsLeap(y: int) {
    y % 4 == 0 && (y % 100 != 0 || y % 400 == 0)
  }

  function DaysInMonth(y: int, m: int): (n: int)
    requires 1 <= m <= 12
    ensures 28 <= n <= 31
  {
    if m == 2 then (if IsLeap(y) then 29 else 28)
    else if m == 4 || m == 6 || m == 9 || m == 11 then 30
    else 31
  }

  predicate Valid(d: Date) {
    1 <= d.month <= 12 && 1 <= d.day <= DaysInMonth(d.year, d.month)
  }

  predicate ValidMoment(t: Moment) {
    Valid(t.date) && 0 <= t.msOfDay < DayMs
  }

  function YearLength(y: int): int {
    if IsLeap(y) then 366 else 365
  }

  /** Days from 0001-01-01 to January 1st of year y (negative before year 1). */
  function DaysBeforeYear(y: int): int {
    365 * (y - 1) + (y - 1) / 4 - (y - 1) / 100 + (y - 1) / 400
  }

  /** Days from January 1st of year y to the first day of month m. */
  function DaysBeforeMonth(y: int, m: int): int
    requires 1 <= m <= 12
  {
    var cumulative := [0, 31, 59, 90, 120, 151, 181, 212, 243, 273, 304, 334];
    cumulative[m - 1] + (if m > 2 && IsLeap(y) then 1 else 0)
  }

  function DayNumber(d: Date): int
    requires Valid(d)
  {
    DaysBeforeYear(d.year) + DaysBeforeMonth(d.year, d.month) + d.day - 1
  }

  /** Local time value (milliseconds) of the midnight that starts day d, up to a constant epoch offset. */
  function MidnightMs(d: Date): int
    requires Valid(d)
  {
    DayNumber(d) * DayMs
  }

  function TimeValue(t: Moment): int
    requires ValidMoment(t)
  {
    MidnightMs(t.date) + t.msOfDay
  }

  /** Ordering of days by their time value, as JavaScript compares two Date objects with < and <=. */
  predicate Before(a: Date, b: Date)
    requires Valid(a) && Valid(b)
  {
    DayNumber(a) < DayNumber(b)
  }

  predicate NotAfter(a: Date, b: Date)
    requires Valid(a) && Valid(b)
  {
    DayNumber(a) <= DayNumber(b)
  }

  /** Lexicographic order on (year, month, day). */
  predicate LexBefore(a: Date, b: Date) {
    a.year < b.year
    || (a.year == b.year && (a.month < b.month || (a.month == b.month && a.day < b.day)))
  }

  // ---------------------------------------------------------------------------
  // The operations of app.js

  /** toStartOfDay: the midnight that starts the calendar day of `now`. */
  function ToStartOfDay(now: Moment): (d: Date)
    requires ValidMoment(now)
    ensures Valid(d)
    ensures MidnightMs(d) <= TimeValue(now) < MidnightMs(d) + DayMs
  {
    now.date
  }

  /**
    isSameDay: compares year, month and day separately, which amounts to equality of the days.
  */
  predicate IsSameDay(a: Date, b: Date)
    ensures IsSameDay(a, b) <==> a == b
  {
    a.year == b.year && a.month == b.month && a.day == b.day
  }

  /** JavaScript's Math.round(n / q) for an integer n and a positive integer q: floor(n / q + 1/2). */
  function RoundDiv(n: int, q: int): (r: int)
    requires q > 0
    ensures 2 * q * r - q <= 2 * n < 2 * q * r + q
  {
    (2 * n + q) / (2 * q)
  }

  /** daysBetween: the millisecond difference of two midnights, divided by DAY_MS and rounded. */
  function DaysBetween(start: Date, end: Date): (n: int)
    requires Valid(start) && Valid(end)
    ensures n == DayNumber(end) - DayNumber(start)
  {
    var diff := MidnightMs(end) - MidnightMs(start);
    RoundExactMultiple(DayNumber(end) - DayNumber(start));
    RoundDiv(diff, DayMs)
  }

  /** Math.max(0, n). */
  function MaxZero(n: int): (r: nat)
    ensures r >= n && (r == 0 || r == n)
  {
    if n < 0 then 0 else n
  }

  /** The day after d, as the Date object's day-of-month overflow produces it. */
  function Next(d: Date): (e: Date)
    requires Valid(d)
    ensures Valid(e)
    ensures DayNumber(e) == DayNumber(d) + 1
  {
    if d.day < DaysInMonth(d.year, d.month) then
      Date(d.year, d.month, d.day + 1)
    else if d.month < 12 then
      MonthStep(d.year, d.month);
      Date(d.year, d.month + 1, 1)
    else
      YearStep(d.year);
      Date(d.year + 1, 1, 1)
  }

  /** The day n days after d (setDate(getDate() + n) for n >= 0). */
  function AddDays(d: Date, n: nat): (e: Date)
    requires Valid(d)
    ensures Valid(e)
    ensures DayNumber(e) == DayNumber(d) + n
  {
    if n == 0 then d else Next(AddDays(d, n - 1))
  }

  // ---------------------------------------------------------------------------
  // Lemmas

  /** Rounding a whole number of days' worth of milliseconds gives back exactly that number of days. */
  lemma RoundExactMultiple(k: int)
    ensures RoundDiv(k * DayMs, DayMs) == k
  {
    var n := 2 * (k * DayMs) + DayMs;
    assert n == k * (2 * DayMs) + DayMs;
    assert 0 <= DayMs < 2 * DayMs;
  }

  /** The quotient by 4 steps up exactly at multiples of 4. */
  lemma QuotientStep4(y: int)
    ensures y / 4 - (y - 1) / 4 == (if y % 4 == 0 then 1 else 0)
  {
  }

  lemma QuotientStep100(y: int)
    ensures y / 100 - (y - 1) / 100 == (if y % 100 == 0 then 1 else 0)
  {
  }

  lemma QuotientStep400(y: int)
    ensures y / 400 - (y - 1) / 400 == (if y % 400 == 0 then 1 else 0)
  {
  }

  /** Every multiple of 100 is a multiple of 4. */
  lemma CenturyIsMultipleOf4(y: int)
    requires y % 100 == 0
    ensures y % 4 == 0
  {
    assert y == 4 * (25 * (y / 100));
  }

  /** Every multiple of 400 is a multiple of 100. */
  lemma QuadCenturyIsCentury(y: int)
    requires y % 400 == 0
    ensures y % 100 == 0
  {
    assert y == 100 * (4 * (y / 400));
  }

  /** A year is YearLength(y) days long. */
  lemma YearStep(y: int)
    ensures DaysBeforeYear(y + 1) == DaysBeforeYear(y) + YearLength(y)
  {
    var x := y - 1;
    assert DaysBeforeYear(y) == 365 * x + x / 4 - x / 100 + x / 400;
    assert DaysBeforeYear(y + 1) == 365 * y + y / 4 - y / 100 + y / 400;
    QuotientStep4(y);
    QuotientStep100(y);
    QuotientStep400(y);
    if y % 400 == 0 {
      QuadCenturyIsCentury(y);
      CenturyIsMultipleOf4(y);
    } else if y % 100 == 0 {
      CenturyIsMultipleOf4(y);
    } else if y % 4 != 0 {
      assert y % 400 != 0 && y % 100 != 0;
    }
  }

  /** Day numbers grow at least 365 per year. */
  lemma {:induction false} YearsApart(y1: int, y2: int)
    requires y1 <= y2
    ensures DaysBeforeYear(y1) + 365 * (y2 - y1) <= DaysBeforeYear(y2)
    decreases y2 - y1
  {
    if y1 < y2 {
      YearsApart(y1, y2 - 1);
      YearStep(y2 - 1);
    }
  }

  /** A month is DaysInMonth(y, m) days long. */
  lemma MonthStep(y: int, m: int)
    requires 1 <= m < 12
    ensures DaysBeforeMonth(y, m + 1) == DaysBeforeMonth(y, m) + DaysInMonth(y, m)
  {
  }

  /** An earlier month of the same year ends no later than a later month begins. */
  lemma {:induction false} MonthsApart(y: int, m1: int, m2: int)
    requires 1 <= m1 < m2 <= 12
    ensures DaysBeforeMonth(y, m1) + DaysInMonth(y, m1) <= DaysBeforeMonth(y, m2)
    decreases m2 - m1
  {
    MonthStep(y, m2 - 1);
    if m1 + 1 < m2 {
      MonthsApart(y, m1, m2 - 1);
    }
  }

  /** Every day of a year has a day number inside that year. */
  lemma WithinYear(d: Date)
    requires Valid(d)
    ensures DaysBeforeYear(d.year) <= DayNumber(d) < DaysBeforeYear(d.year + 1)
  {
    YearStep(d.year);
    if d.month < 12 {
      MonthsApart(d.year, d.month, 12);
    }
  }

  /** A day that comes first lexicographically has the smaller day number. */
  lemma LexBeforeImpliesBefore(a: Date, b: Date)
    requires Valid(a) && Valid(b) && LexBefore(a, b)
    ensures Before(a, b)
  {
    if a.year < b.year {
      WithinYear(a);
      YearsApart(a.year + 1, b.year);
    } else if a.month < b.month {
      MonthsApart(a.year, a.month, b.month);
    }
  }

  /** The lexicographic order of (year, month, day) and the order of day numbers agree. */
  lemma LexBeforeIsBefore(a: Date, b: Date)
    requires Valid(a) && Valid(b)
    ensures LexBefore(a, b) <==> Before(a, b)
  {
    if LexBefore(a, b) {
      LexBeforeImpliesBefore(a, b);
    } else if a != b {
      assert LexBefore(b, a);
      LexBeforeImpliesBefore(b, a);
    }
  }

  /** Two valid days with the same day number are the same day. */
  lemma DayNumberInjective(a: Date, b: Date)
    requires Valid(a) && Valid(b)
    ensures DayNumber(a) == DayNumber(b) <==> a == b
  {
    LexBeforeIsBefore(a, b);
    LexBeforeIsBefore(b, a);
  }

  /** isSameDay holds exactly when daysBetween is zero. */
  lemma SameDayIffNoDaysBetween(a: Date, b: Date)
    requires Valid(a) && Valid(b)
    ensures IsSameDay(a, b) <==> DaysBetween(a, b) == 0
  {
    DayNumberInjective(a, b);
  }

  /** Adding the day difference to the earlier day gives the later day. */
  lemma AddDaysBetween(a: Date, b: Date)
    requires Valid(a) && Valid(b) && NotAfter(a, b)
    ensures AddDays(a, DaysBetween(a, b)) == b
  {
    DayNumberInjective(AddDays(a, DaysBetween(a, b)), b);
  }

  /** The start of day of any instant of a day is that day's midnight, and it is the only midnight in reach. */
  lemma StartOfDayUnique(now: Moment, d: Date)
    requires ValidMoment(now) && Valid(d)
    requires MidnightMs(d) <= TimeValue(now) < MidnightMs(d) + DayMs
    ensures ToStartOfDay(now) == d
  {
    var s := ToStartOfDay(now);
    var ds, dd := DayNumber(s), DayNumber(d);
    assert MidnightMs(s) == ds * DayMs && MidnightMs(d) == dd * DayMs;
    ScaledBelow(dd, ds);
    ScaledBelow(ds, dd);
    DayNumberInjective(s, d);
  }

  /** Midnights less than a day apart belong to day numbers in the same order. */
  lemma ScaledBelow(p: int, q: int)
    requires p * DayMs < q * DayMs + DayMs
    ensures p <= q
  {
  }
}

=== FILE: countdown_start.dfy ===
/**
  The first day of the countdown (app.js: getCountdownStart). The day is stored once under
  the start key and reused on later visits; a missing, empty, undecodable or too-late stored
  key is replaced by today's key. Storage is a parameter (the stored text, if any) and a result
  (the text to write back, if any).
*/
module CountdownStart {
  import opened Wrappers
  import opened CivilDays
  import opened DayKeys
  import opened TextUtil

  /** DEADLINE: midnight of 1 June 2027. */
  const Deadline: Date := Date(2027, 6, 1)

  /** The resolved start day and the key to write under the start-key entry, if one is written. */
  datatype StartResolution = StartResolution(start: Date, write: Option<string>)

  /** True when the stored text names a valid day that is not after the deadline. */
  predicate Accepts(stored: Option<string>, deadline: Date)
    requires Valid(deadline)
  {
    && stored.Some?
    && stored.value != ""
    && ParseDateKey(stored.value).Some?
    && NotAfter(ParseDateKey(stored.value).value, deadline)
  }

  /** getCountdownStart as a decision on (today, deadline, stored key). */
  function ResolveStart(today: Date, deadline: Date, stored: Option<string>): (r: StartResolution)
    requires Valid(today) && Valid(deadline)
    ensures Valid(r.start)
    ensures r.write.None? <==> Accepts(stored, deadline)
    ensures r.write.None? ==> Some(r.start) == ParseDateKey(stored.value) && NotAfter(r.start, deadline)
    ensures r.write.Some? ==> r.start == today && r.write.value == FormatDateKey(today)
  {
    if stored.Some? && stored.value != "" then
      match ParseDateKey(stored.value)
      case Some(parsed) =>
        if NotAfter(parsed, deadline) then StartResolution(parsed, None)
        else StartResolution(today, Some(FormatDateKey(today)))
      case None => StartResolution(today, Some(FormatDateKey(today)))
    else
      StartResolution(today, Some(FormatDateKey(today)))
  }

  // ---------------------------------------------------------------------------
  // Lemmas

  /** The start is always the stored day or today. */
  lemma StartIsStoredOrToday(today: Date, deadline: Date, stored: Option<string>)
    requires Valid(today) && Valid(deadline)
    ensures var r := ResolveStart(today, deadline, stored);
      r.start == today || (stored.Some? && ParseDateKey(stored.value) == Some(r.start))
  {
  }

  /**
    Once bootstrapped on a day that is not after the deadline, the start stays put: on any
    later visit the written key is read back as the same day and nothing is written again.
  */
  lemma StartIsStable(first: Date, later: Date, deadline: Date)
    requires Valid(first) && Valid(later) && Valid(deadline)
    requires first.year >= 100 && NotAfter(first, deadline)
    ensures var r := ResolveStart(first, deadline, None);
      ResolveStart(later, deadline, r.write) == StartResolution(first, None)
  {
    ParseFormat(first);
  }

  /**
    A key written on a day after the deadline is never accepted: each later visit
    writes again and starts from that visit's day (the source falls back to today,
    not to the earlier of today and the deadline).
  */
  lemma LateStartIsRewritten(first: Date, later: Date, deadline: Date)
    requires Valid(first) && Valid(later) && Valid(deadline)
    requires first.year >= 100 && Before(deadline, first)
    ensures var r := ResolveStart(first, deadline, None);
      ResolveStart(later, deadline, r.write) == StartResolution(later, Some(FormatDateKey(later)))
  {
    ParseFormat(first);
  }

  /** First visit on 10 January 2025: that day becomes the start, its key is written, and 872 days remain. */
  lemma FirstVisitExample()
    ensures ResolveStart(Date(2025, 1, 10), Deadline, None)
      == StartResolution(Date(2025, 1, 10), Some(FormatDateKey(Date(2025, 1, 10))))
    ensures FormatDateKey(Date(2025, 1, 10)) == "2025-01-10"
    ensures DaysBetween(Date(2025, 1, 10), Deadline) == 872
  {
    FirstVisitKey();
    FirstVisitDays();
  }

  /** The key written on that first visit. */
  lemma FirstVisitKey()
    ensures FormatDateKey(Date(2025, 1, 10)) == "2025-01-10"
  {
    assert NatToString(2025) == "2025" by {
      assert NatToString(2) == "2";
      assert NatToString(20) == "20";
      assert NatToString(202) == "202";
    }
    assert Pad2(1) == "01" by { assert NatToString(1) == "1"; }
    assert Pad2(10) == "10" by { assert NatToString(10) == "10"; }
  }

  /** Days from 10 January 2025 to the deadline. */
  lemma FirstVisitDays()
    ensures DaysBetween(Date(2025, 1, 10), Deadline) == 872
  {
    assert DayNumber(Date(2025, 1, 10)) == 739260 by {
      assert DaysBeforeYear(2025) == 739251;
    }
    assert DayNumber(Deadline) == 740132 by {
      assert DaysBeforeYear(2027) == 739981;
      assert DaysBeforeMonth(2027, 6) == 151;
    }
  }
}

=== FILE: day_keys.dfy ===
/**
  The `YYYY-MM-DD` day keys (app.js: formatDateKey, parseDateKey). Keys name the
  boxes of the timeline and index the notes map, so distinct days must get distinct keys
  and a key must decode to the day it was made from.
*/
module DayKeys {
  import opened Wrappers
  import opened TextUtil
  import opened CivilDays

  /** String(y) for any integer year: a minus sign before the digits of a negative year. */
  function YearText(y: int): (s: string)
    ensures y >= 0 ==> AllDigits(s) && DigitsValue(s) == y
    ensures y < 0 ==> |s| >= 2 && s[0] == '-' && AllDigits(s[1..]) && DigitsValue(s[1..]) == -y
    ensures y >= 0 && |s| > 1 ==> s[0] != '0'
    ensures y < 0 ==> s[1] != '0'
  {
    DigitsOfNat(if y >= 0 then y else -y);
    if y >= 0 then NatToString(y)
    else
      var s := "-" + NatToString(-y);
      assert s[1..] == NatToString(-y);
      s
  }

  /** String(n).padStart(2, "0"): the digits of n, with a '0' in front of a single digit. */
  function Pad2(n: nat): (s: string)
    ensures |s| >= 2 && AllDigits(s) && DigitsValue(s) == n
    ensures n < 100 ==> |s| == 2
    ensures n < 10 ==> s == ['0'] + NatToString(n)
    ensures n >= 10 ==> s == NatToString(n)
  {
    var t := NatToString(n);
    DigitsOfNat(n);
    if n < 10 then
      assert PadStartZero(t, 2) == ['0'] + t;
      LeadingZero(t);
      PadStartZero(t, 2)
    else
      assert |t| >= 2 by {
        assert t == NatToString(n / 10) + [DigitChar(n % 10)];
      }
      assert n < 100 ==> |t| == 2 by {
        if n < 100 {
          assert NatToString(n / 10) == [DigitChar(n / 10)];
        }
      }
      PadStartZero(t, 2)
  }

  /** formatDateKey: year, then the 1-based month and the day, each padded to two digits, joined by '-'. */
  function FormatDateKey(d: Date): (key: string)
    requires Valid(d)
    ensures d.year >= 0 ==> Split(key, '-') == [YearText(d.year), Pad2(d.month), Pad2(d.day)]
  {
    var key := YearText(d.year) + "-" + Pad2(d.month) + "-" + Pad2(d.day);
    if d.year >= 0 then
      SplitKey(YearText(d.year), Pad2(d.month), Pad2(d.day));
      key
    else
      key
  }

  /** The parts Number reads as a natural number in this model: non-empty runs of decimal digits. */
  predicate IsNumeral(part: string) {
    |part| > 0 && AllDigits(part)
  }

  /** Number(part), for the parts this model reads as numbers. */
  function ParseNumber(part: string): (r: Option<nat>)
    ensures r.Some? <==> IsNumeral(part)
    ensures r.Some? ==> r.value == DigitsValue(part)
  {
    if IsNumeral(part) then Some(DigitsValue(part)) else None
  }

  /** new Date(y, ...) reads a year from 0 to 99 as 1900 + y and leaves other years alone. */
  function FullYear(y: nat): (year: nat)
    ensures y <= 99 ==> year == 1900 + y
    ensures y >= 100 ==> year == y
  {
    if y <= 99 then 1900 + y else y
  }

  /**
    parseDateKey: split on '-', read the first three parts as numbers and build the day.
    None stands for the source's Invalid Date (a part missing or not a number). Parts
    after the third are ignored, as in the source.
  */
  function ParseDateKey(value: string): (r: Option<Date>)
    ensures r.Some? ==> Valid(r.value)
    ensures r.Some? ==>
      var parts := Split(value, '-');
      && |parts| >= 3
      && IsNumeral(parts[0]) && IsNumeral(parts[1]) && IsNumeral(parts[2])
      && r.value == Date(FullYear(DigitsValue(parts[0])), DigitsValue(parts[1]), DigitsValue(parts[2]))
  {
    var parts := Split(value, '-');
    if |parts| < 3 then None
    else
      match (ParseNumber(parts[0]), ParseNumber(parts[1]), ParseNumber(parts[2]))
      case (Some(y), Some(m), Some(d)) =>
        var year := FullYear(y);
        if 1 <= m <= 12 && 1 <= d <= DaysInMonth(year, m) then Some(Date(year, m, d)) else None
      case _ => None
  }

  // ---------------------------------------------------------------------------
  // Lemmas

  /** The key is the year's text, '-', two month digits, '-', two day digits. */
  lemma KeyFormat(d: Date)
    requires Valid(d)
    ensures var key, n := FormatDateKey(d), |FormatDateKey(d)|;
      && n >= 7
      && key[..n - 6] == YearText(d.year)
      && key[n - 6] == '-' && key[n - 3] == '-'
      && AllDigits(key[n - 5..n - 3]) && DigitsValue(key[n - 5..n - 3]) == d.month
      && AllDigits(key[n - 2..]) && DigitsValue(key[n - 2..]) == d.day
  {
    var key, n := FormatDateKey(d), |FormatDateKey(d)|;
    var y := YearText(d.year);
    assert key[..n - 6] == y;
    assert key[n - 5..n - 3] == Pad2(d.month);
    assert key[n - 2..] == Pad2(d.day);
  }

  /** A key made of three digit runs joined by '-' splits back into those three runs. */
  lemma SplitKey(y: string, m: string, dd: string)
    requires AllDigits(y) && AllDigits(m) && AllDigits(dd)
    ensures Split(y + "-" + m + "-" + dd, '-') == [y, m, dd]
  {
    assert '-' !in y && '-' !in m && '-' !in dd by {
      assert forall k :: 0 <= k < |y| ==> IsDigit(y[k]);
      assert forall k :: 0 <= k < |m| ==> IsDigit(m[k]);
      assert forall k :: 0 <= k < |dd| ==> IsDigit(dd[k]);
    }
    assert y + "-" + m + "-" + dd == y + ['-'] + (m + ['-'] + dd);
    SplitFirst(y, '-', m + ['-'] + dd);
    SplitFirst(m, '-', dd);
    SplitNoSep(dd, '-');
  }

  /** Decoding a key whose three parts are digit runs reads the parts as year, month and day. */
  lemma ParseKeyParts(y: string, m: string, dd: string)
    requires |y| > 0 && |m| > 0 && |dd| > 0
    requires AllDigits(y) && AllDigits(m) && AllDigits(dd)
    requires 1 <= DigitsValue(m) <= 12
    requires 1 <= DigitsValue(dd) <= DaysInMonth(FullYear(DigitsValue(y)), DigitsValue(m))
    ensures ParseDateKey(y + "-" + m + "-" + dd)
      == Some(Date(FullYear(DigitsValue(y)), DigitsValue(m), DigitsValue(dd)))
  {
    SplitKey(y, m, dd);
  }

  /**
    Decoding fails when the value has fewer than three '-'-separated parts, when one of the
    first three is not a digit run, or when the month or the day is out of range.
  */
  lemma ParseRejects(value: string)
    requires var parts := Split(value, '-');
      || |parts| < 3
      || !IsNumeral(parts[0]) || !IsNumeral(parts[1]) || !IsNumeral(parts[2])
      || !(1 <= DigitsValue(parts[1]) <= 12)
      || !(1 <= DigitsValue(parts[2]) <= DaysInMonth(FullYear(DigitsValue(parts[0])), DigitsValue(parts[1])))
    ensures ParseDateKey(value) == None
  {
  }

  /**
    Decoding succeeds when the first three '-'-separated parts are digit runs naming a valid
    month and day, however many parts follow: the day is the one those three parts name.
  */
  lemma ParseAccepts(value: string)
    requires var parts := Split(value, '-');
      && |parts| >= 3
      && IsNumeral(parts[0]) && IsNumeral(parts[1]) && IsNumeral(parts[2])
      && 1 <= DigitsValue(parts[1]) <= 12
      && 1 <= DigitsValue(parts[2]) <= DaysInMonth(FullYear(DigitsValue(parts[0])), DigitsValue(parts[1]))
    ensures var parts := Split(value, '-');
      ParseDateKey(value)
        == Some(Date(FullYear(DigitsValue(parts[0])), DigitsValue(parts[1]), DigitsValue(parts[2])))
  {
  }

  /** Parts after the third are ignored: "2025-01-10-x" is 10 January 2025. */
  lemma ExtraPartsIgnored()
    ensures ParseDateKey("2025-01-10-x") == Some(Date(2025, 1, 10))
  {
    ExampleParts();
    ExampleDigits();
    ParseAccepts("2025-01-10-x");
  }

  lemma ExampleParts()
    ensures Split("2025-01-10-x", '-') == ["2025", "01", "10", "x"]
  {
    assert "2025-01-10-x" == "2025" + ['-'] + ("01" + ['-'] + ("10" + ['-'] + "x"));
    SplitFourParts("2025", "01", "10", "x");
  }

  lemma SplitFourParts(y: string, m: string, dd: string, x: string)
    requires '-' !in y && '-' !in m && '-' !in dd && '-' !in x
    ensures Split(y + ['-'] + (m + ['-'] + (dd + ['-'] + x)), '-') == [y, m, dd, x]
  {
    SplitFirst(dd, '-', x);
    SplitNoSep(x, '-');
    SplitFirst(m, '-', dd + ['-'] + x);
    SplitFirst(y, '-', m + ['-'] + (dd + ['-'] + x));
  }

  lemma ExampleDigits()
    ensures IsNumeral("2025") && IsNumeral("01") && IsNumeral("10")
    ensures DigitsValue("2025") == 2025 && DigitsValue("01") == 1 && DigitsValue("10") == 10
  {
    assert "2025"[..3] == "202" && "202"[..2] == "20" && "20"[..1] == "2" && "2"[..0] == "";
    assert "01"[..1] == "0" && "0"[..0] == "";
    assert "10"[..1] == "1" && "1"[..0] == "";
  }

  /** Decoding the key of a day whose year is written with at least three digits gives back that day. */
  lemma ParseFormat(d: Date)
    requires Valid(d) && d.year >= 100
    ensures ParseDateKey(FormatDateKey(d)) == Some(d)
  {
    ParseKeyParts(YearText(d.year), Pad2(d.month), Pad2(d.day));
  }

  /** Distinct days of years from 100 on have distinct keys, so the notes of two days never share an entry. */
  lemma KeysDistinct(a: Date, b: Date)
    requires Valid(a) && a.year >= 100 && Valid(b) && b.year >= 100
    ensures FormatDateKey(a) == FormatDateKey(b) <==> a == b
  {
    ParseFormat(a);
    ParseFormat(b);
  }

  /**
    The key of a day in a negative year starts with '-', so it splits into four parts with an
    empty first part, which is not a number: decoding fails.
  */
  lemma NegativeYearKeyRejected(d: Date)
    requires Valid(d) && d.year < 0
    ensures |Split(FormatDateKey(d), '-')| == 4 && Split(FormatDateKey(d), '-')[0] == ""
    ensures ParseDateKey(FormatDateKey(d)) == None
  {
    NegativeKeyParts(d.year, Pad2(d.month), Pad2(d.day));
    ParseRejects(FormatDateKey(d));
  }

  /** A key whose year text starts with the minus sign splits into an empty part followed by the three digit runs. */
  lemma NegativeKeyParts(y: int, m: string, dd: string)
    requires y < 0 && AllDigits(m) && AllDigits(dd)
    ensures Split(YearText(y) + "-" + m + "-" + dd, '-') == ["", NatToString(-y), m, dd]
  {
    var digits := NatToString(-y);
    var rest := digits + "-" + m + "-" + dd;
    assert YearText(y) + "-" + m + "-" + dd == "" + ['-'] + rest;
    SplitFirst("", '-', rest);
    SplitKey(digits, m, dd);
  }

  /** Years 0 to 99 do not survive the round trip: the Date constructor moves them into the 1900s. */
  lemma TwoDigitYearShifts()
    ensures ParseDateKey(FormatDateKey(Date(99, 1, 31))) == Some(Date(1999, 1, 31))
  {
    ParseKeyParts(YearText(99), Pad2(1), Pad2(31));
  }
}

=== FILE: live_state.dfy ===
/**
  The per-minute refresh (app.js: updateLiveState) and the boxes it refreshes (renderBoxes).
  Each day box carries its day key and three classes: with-note (set when the boxes are
  rendered), done and today (reset and re-derived on every refresh from the wall clock).
*/
module LiveState {
  import opened Wrappers
  import opened CivilDays
  import opened DayKeys
  import opened Notes

  /** A day box: its data-date key and whether it carries the with-note, done and today classes. */
  datatype DayBox = DayBox(key: string, withNote: bool, done: bool, today: bool)

  /** The done and today classes a refresh gives one box. */
  datatype Marks = Marks(done: bool, today: bool)

  /** The countdown heading. */
  datatype Title = GraduationDayCame | DaysLeft(days: nat)

  /**
    The classification of one box: done when its day is before today, otherwise today when it
    is the same day. An Invalid Date (None) compares false with everything and gets neither.
  */
  function Classify(today: Date, boxDate: Option<Date>): (m: Marks)
    requires Valid(today)
    requires boxDate.Some? ==> Valid(boxDate.value)
    ensures m.done <==> boxDate.Some? && Before(boxDate.value, today)
    ensures m.today <==> boxDate.Some? && IsSameDay(boxDate.value, today)
    ensures !(m.done && m.today)
  {
    match boxDate
    case None => Marks(false, false)
    case Some(d) =>
      if Before(d, today) then Marks(true, false)
      else if IsSameDay(d, today) then Marks(false, true)
      else Marks(false, false)
  }

  /** remaining = Math.max(0, daysBetween(today, deadline)). */
  function Remaining(today: Date, deadline: Date): (n: nat)
    requires Valid(today) && Valid(deadline)
    ensures n == 0 <==> NotAfter(deadline, today)
    ensures n > 0 ==> AddDays(today, n) == deadline
  {
    var n := MaxZero(DaysBetween(today, deadline));
    if n > 0 then AddDaysBetween(today, deadline); n else n
  }

  /** The heading: "the graduation day has come" exactly when no day remains. */
  function Headline(today: Date, deadline: Date): (t: Title)
    requires Valid(today) && Valid(deadline)
    ensures t.GraduationDayCame? <==> !Before(today, deadline)
    ensures t.DaysLeft? ==> t.days == DaysBetween(today, deadline) > 0
  {
    var remaining := Remaining(today, deadline);
    if remaining == 0 then GraduationDayCame else DaysLeft(remaining)
  }

  /**
    renderBoxes: one box per timeline day, keyed by its day key, flagged when the day has notes.
    The day keys are computed first; the boxes are then appended one per key.
  */
  method RenderBoxes(timeline: seq<Date>, notes: NotesMap) returns (boxes: array<DayBox>)
    requires forall i :: 0 <= i < |timeline| ==> Valid(timeline[i])
    ensures fresh(boxes)
    ensures boxes.Length == |timeline|
    ensures forall i :: 0 <= i < |timeline| ==> boxes[i] == FreshBox(FormatDateKey(timeline[i]), notes)
  {
    var keys := seq(|timeline|, i requires 0 <= i < |timeline| => FormatDateKey(timeline[i]));
    boxes := BoxesFor(keys, notes);
  }

  /** The grid filled box by box: box i carries key i and its with-note flag. */
  method BoxesFor(keys: seq<string>, notes: NotesMap) returns (boxes: array<DayBox>)
    ensures fresh(boxes)
    ensures boxes.Length == |keys|
    ensures forall i :: 0 <= i < |keys| ==> boxes[i] == FreshBox(keys[i], notes)
  {
    boxes := new DayBox[|keys|];
    for i := 0 to |keys|
      invariant forall j :: 0 <= j < i ==> boxes[j] == FreshBox(keys[j], notes)
    {
      boxes[i] := FreshBox(keys[i], notes);
    }
  }

  /** A newly rendered box: its key, flagged when the key has notes, neither done nor today. */
  function FreshBox(key: string, notes: NotesMap): (b: DayBox)
    ensures b.key == key && (b.withNote <==> |EntryOf(notes, key)| > 0) && !b.done && !b.today
  {
    DayBox(key, HasNote(notes, key), false, false)
  }

  /**
    One box after a refresh: both classes cleared, then done set when the key's day is before
    today, otherwise today set when it is the same day. Key and with-note flag are untouched.
  */
  function RefreshBox(box: DayBox, today: Date): (b: DayBox)
    requires Valid(today)
    ensures b.key == box.key && b.withNote == box.withNote
    ensures Marks(b.done, b.today) == Classify(today, ParseDateKey(box.key))
  {
    var boxDate := ParseDateKey(box.key);
    var cleared := box.(done := false, today := false);
    if boxDate.Some? && Before(boxDate.value, today) then cleared.(done := true)
    else if boxDate.Some? && IsSameDay(boxDate.value, today) then cleared.(today := true)
    else cleared
  }

  /**
    updateLiveState: today's start of day, the heading, and for every box the done and today
    classes cleared and re-derived from the box's key. Keys and with-note flags are untouched.
  */
  method UpdateLiveState(now: Moment, deadline: Date, boxes: array<DayBox>) returns (title: Title)
    requires ValidMoment(now) && Valid(deadline)
    modifies boxes
    ensures title == Headline(ToStartOfDay(now), deadline)
    ensures forall i :: 0 <= i < boxes.Length ==>
      && boxes[i].key == old(boxes[i].key)
      && boxes[i].withNote == old(boxes[i].withNote)
      && Marks(boxes[i].done, boxes[i].today) == Classify(ToStartOfDay(now), ParseDateKey(boxes[i].key))
  {
    var today := ToStartOfDay(now);
    var remaining := Remaining(today, deadline);
    if remaining == 0 {
      title := GraduationDayCame;
    } else {
      title := DaysLeft(remaining);
    }
    for i := 0 to boxes.Length
      invariant forall j :: 0 <= j < i ==> boxes[j] == RefreshBox(old(boxes[j]), today)
      invariant forall j :: i <= j < boxes.Length ==> boxes[j] == old(boxes[j])
    {
      boxes[i] := RefreshBox(boxes[i], today);
    }
  }

  /**
    Two refreshes on the same day (the one-minute timer firing again) leave the boxes and the
    heading exactly as the first refresh left them.
  */
  method RefreshTwice(now: Moment, later: Moment, deadline: Date, boxes: array<DayBox>)
    returns (first: Title, second: Title)
    requires ValidMoment(now) && ValidMoment(later) && Valid(deadline)
    requires ToStartOfDay(now) == ToStartOfDay(later)
    modifies boxes
    ensures first == second
    ensures forall i :: 0 <= i < boxes.Length ==>
      && boxes[i].key == old(boxes[i].key)
      && boxes[i].withNote == old(boxes[i].withNote)
      && Marks(boxes[i].done, boxes[i].today) == Classify(ToStartOfDay(now), ParseDateKey(boxes[i].key))
  {
    first := UpdateLiveState(now, deadline, boxes);
    ghost var afterFirst := boxes[..];
    second := UpdateLiveState(later, deadline, boxes);
    assert boxes[..] == afterFirst;
  }

  // ---------------------------------------------------------------------------
  // Lemmas

  /**
    A box made from a day of the timeline is done when its day is past, today when it is today,
    and unmarked exactly when it is still to come.
  */
  lemma BoxOfDay(today: Date, d: Date)
    requires Valid(today) && Valid(d) && d.year >= 100
    ensures var m := Classify(today, ParseDateKey(FormatDateKey(d)));
      && (m.done <==> Before(d, today))
      && (m.today <==> d == today)
      && (!m.done && !m.today <==> Before(today, d))
  {
    ParseFormat(d);
    DayNumberInjective(d, today);
  }

  /**
    With today inside the countdown, the done boxes are exactly the first daysBetween(start, today)
    boxes of the timeline, and the remaining count is the number of boxes from today on.
  */
  lemma DoneBoxesAndRemaining(start: Date, deadline: Date, today: Date, timeline: seq<Date>)
    requires Valid(start) && Valid(deadline) && Valid(today)
    requires NotAfter(start, today) && NotAfter(today, deadline)
    requires |timeline| == MaxZero(DaysBetween(start, deadline))
    requires forall i :: 0 <= i < |timeline| ==> Valid(timeline[i]) && DaysBetween(start, timeline[i]) == i
    ensures forall i :: 0 <= i < |timeline| ==>
      (Classify(today, Some(timeline[i])).done <==> i < DaysBetween(start, today))
    ensures Remaining(today, deadline) == |timeline| - DaysBetween(start, today)
  {
  }
}

=== FILE: notes.dfy ===
/**
  Day notes (app.js: readNotes, openEditor, closeEditor, handleSave, handleClear and the
  with-note flag of renderBoxes). The notes map sends a day key to the lines noted for that
  day; the editor remembers which day key is being edited. Writes to storage are returned
  as the map that would be serialized.
*/
module Notes {
  import opened Wrappers
  import opened TextUtil
  import opened CivilDays
  import opened DayKeys

  type NotesMap = map<string, seq<string>>

  /** What reading the notes entry of storage produced, after JSON decoding. */
  datatype StoredNotes =
    | Absent          // no entry, or an empty string
    | Unparsable      // JSON.parse threw
    | NotAnObject     // null, a number, a string or a boolean
    | Object(entries: NotesMap)
      // A stored JSON array passes readNotes's typeof check as well; its day-key lookups find
      // nothing, so it is represented here by Object(map[]).

  // ---------------------------------------------------------------------------
  // Line normalisation (handleSave's split / map / filter chain)

  /** The bullet markers a line may start with: '-', '*' and '•'. */
  predicate IsMarker(c: char) {
    c == '-' || c == '*' || c == '\U{2022}'
  }

  /** Replacing the pattern `^[-*•]\s*` by "": one marker in the first column and the white space after it. */
  function StripMarker(line: string): (r: string)
    ensures |line| > 0 && IsMarker(line[0]) ==>
      && |r| < |line| && r == line[|line| - |r|..]
      && (forall k :: 1 <= k < |line| - |r| ==> IsWhitespace(line[k]))
      && (|r| > 0 ==> !IsWhitespace(r[0]))
    ensures !(|line| > 0 && IsMarker(line[0])) ==> r == line
    ensures forall c :: c in r ==> c in line
  {
    if |line| > 0 && IsMarker(line[0]) then
      var rest := line[1..];
      var r := TrimStart(rest);
      assert forall k :: 1 <= k < |line| - |r| ==> line[k] == rest[k - 1];
      r
    else line
  }

  /** The map step: marker removed first, then the line trimmed. */
  function CleanLine(line: string): (r: string)
    ensures |r| > 0 ==> !IsWhitespace(r[0]) && !IsWhitespace(r[|r| - 1])
    ensures forall c :: c in r ==> c in line
    ensures '\n' !in line ==> r == "" || IsCleanRow(r)
  {
    Trim(StripMarker(line))
  }

  /** A cleaned line is the trimmed text after a first-column marker, or the whole line trimmed when there is none. */
  lemma CleanLineIsTrim(line: string)
    ensures |line| > 0 && IsMarker(line[0]) ==> CleanLine(line) == Trim(line[1..])
    ensures !(|line| > 0 && IsMarker(line[0])) ==> CleanLine(line) == Trim(line)
  {
    if |line| > 0 && IsMarker(line[0]) {
      TrimAfterTrimStart(line[1..]);
    }
  }

  function CleanLines(lines: seq<string>): (r: seq<string>)
    ensures |r| == |lines|
    ensures forall i :: 0 <= i < |r| ==> r[i] == CleanLine(lines[i])
  {
    seq(|lines|, i requires 0 <= i < |lines| => CleanLine(lines[i]))
  }

  /** filter(Boolean): drops the empty strings and keeps the rest in order. */
  function KeepNonEmpty(xs: seq<string>): (r: seq<string>)
    ensures |r| <= |xs|
    ensures forall k :: 0 <= k < |r| ==> r[k] != ""
  {
    if |xs| == 0 then []
    else if xs[0] == "" then KeepNonEmpty(xs[1..])
    else [xs[0]] + KeepNonEmpty(xs[1..])
  }

  /** The rows handleSave stores for the editor's text. */
  function NormalizeNote(text: string): (rows: seq<string>)
    ensures |rows| <= |Split(text, '\n')|
    ensures forall k :: 0 <= k < |rows| ==> IsCleanRow(rows[k])
  {
    var lines := Split(text, '\n');
    SplitPiecesFree(text, '\n');
    KeepNonEmptyClean(CleanLines(lines));
    KeepNonEmpty(CleanLines(lines))
  }

  /** Filtering the cleaned lines leaves only clean rows. */
  lemma {:induction false} KeepNonEmptyClean(xs: seq<string>)
    requires forall k :: 0 <= k < |xs| ==> xs[k] == "" || IsCleanRow(xs[k])
    ensures forall k :: 0 <= k < |KeepNonEmpty(xs)| ==> IsCleanRow(KeepNonEmpty(xs)[k])
  {
    if |xs| > 0 {
      KeepNonEmptyClean(xs[1..]);
    }
  }

  /** A stored row: not empty, a single line, no white space at either end. */
  predicate IsCleanRow(row: string) {
    && row != ""
    && '\n' !in row
    && !IsWhitespace(row[0])
    && !IsWhitespace(row[|row| - 1])
  }

  // ---------------------------------------------------------------------------
  // The notes map

  /** Every key holds a non-empty list: the shape handleSave and handleClear maintain. */
  predicate WellFormed(m: NotesMap) {
    forall k :: k in m ==> |m[k]| > 0
  }

  /** readNotes: the decoded object, or an empty map when the entry is absent, unparsable or not an object. */
  function ReadNotes(stored: StoredNotes): (m: NotesMap)
    ensures stored.Object? ==> m == stored.entries
    ensures !stored.Object? ==> m == map[]
  {
    match stored
    case Object(entries) => entries
    case _ => map[]
  }

  /** The map after saving `rows` under `key`: set when there are rows, deleted otherwise. */
  function SaveEntry(m: NotesMap, key: string, rows: seq<string>): (r: NotesMap)
    ensures key in r <==> |rows| > 0
    ensures key in r ==> r[key] == rows
    ensures forall k :: k != key ==> (k in r <==> k in m) && (k in r ==> r[k] == m[k])
    ensures WellFormed(m) ==> WellFormed(r)
  {
    if |rows| > 0 then m[key := rows] else m - {key}
  }

  /** The map after clearing `key`. */
  function ClearEntry(m: NotesMap, key: string): (r: NotesMap)
    ensures key !in r
    ensures forall k :: k != key ==> (k in r <==> k in m) && (k in r ==> r[k] == m[k])
    ensures WellFormed(m) ==> WellFormed(r)
  {
    m - {key}
  }

  /** notes[key] || []: the lines shown in the editor. */
  function EntryOf(m: NotesMap, key: string): (lines: seq<string>)
    ensures key in m ==> lines == m[key]
    ensures key !in m ==> lines == []
  {
    if key in m then m[key] else []
  }

  /** The with-note flag of a day box: its entry is a list with at least one line. */
  predicate HasNote(m: NotesMap, key: string)
    ensures HasNote(m, key) <==> |EntryOf(m, key)| > 0
  {
    key in m && |m[key]| > 0
  }

  // ---------------------------------------------------------------------------
  // The editor state

  class NotesEditor {
    var notes: NotesMap
    var currentEditDateKey: Option<string>

    /** `if (!currentEditDateKey) return;`: null and the empty string both count as "not editing". */
    predicate IsEditing()
      reads this
      ensures IsEditing() <==> currentEditDateKey != None && currentEditDateKey != Some("")
    {
      currentEditDateKey.Some? && currentEditDateKey.value != ""
    }

    /** Start-up: the notes read from storage, nothing being edited. */
    constructor (stored: StoredNotes)
      ensures notes == ReadNotes(stored)
      ensures currentEditDateKey == None
    {
      notes := ReadNotes(stored);
      currentEditDateKey := None;
    }

    /** openEditor: remember the day's key and show its lines, one per row. */
    method OpenEditor(date: Date) returns (editorText: string)
      requires Valid(date)
      modifies this
      ensures currentEditDateKey == Some(FormatDateKey(date))
      ensures notes == old(notes)
      ensures editorText == Join(EntryOf(notes, FormatDateKey(date)), '\n')
    {
      var dateKey := FormatDateKey(date);
      currentEditDateKey := Some(dateKey);
      var items := EntryOf(notes, dateKey);
      editorText := Join(items, '\n');
    }

    /** closeEditor: nothing is being edited any more. */
    method CloseEditor()
      modifies this
      ensures currentEditDateKey == None
      ensures notes == old(notes)
    {
      currentEditDateKey := None;
    }

    /**
      handleSave: store the normalised rows of the editor's text under the edited key (or
      delete the key when no row is left), persist the map and close the editor. Without an
      edited key nothing happens.
    */
    method HandleSave(input: string) returns (persisted: Option<NotesMap>)
      modifies this
      ensures old(IsEditing()) ==>
        && notes == SaveEntry(old(notes), old(currentEditDateKey).value, NormalizeNote(input))
        && currentEditDateKey == None
        && persisted == Some(notes)
      ensures !old(IsEditing()) ==>
        && notes == old(notes)
        && currentEditDateKey == old(currentEditDateKey)
        && persisted == None
    {
      if !IsEditing() {
        return None;
      }
      var key := currentEditDateKey.value;
      var rows := NormalizeNote(input);
      if |rows| > 0 {
        notes := notes[key := rows];
      } else {
        notes := notes - {key};
      }
      persisted := Some(notes);
      CloseEditor();
    }

    /** handleClear: delete the edited key, persist the map and close the editor. */
    method HandleClear() returns (persisted: Option<NotesMap>)
      modifies this
      ensures old(IsEditing()) ==>
        && notes == ClearEntry(old(notes), old(currentEditDateKey).value)
        && currentEditDateKey == None
        && persisted == Some(notes)
      ensures !old(IsEditing()) ==>
        && notes == old(notes)
        && currentEditDateKey == old(currentEditDateKey)
        && persisted == None
    {
      if !IsEditing() {
        return None;
      }
      var key := currentEditDateKey.value;
      notes := notes - {key};
      persisted := Some(notes);
      CloseEditor();
    }
  }

  // ---------------------------------------------------------------------------
  // Lemmas

  /** filter(Boolean) distributes over concatenation, so rows keep the order of their lines. */
  lemma {:induction false} KeepNonEmptyAppend(a: seq<string>, b: seq<string>)
    ensures KeepNonEmpty(a + b) == KeepNonEmpty(a) + KeepNonEmpty(b)
  {
    if |a| == 0 {
      assert a + b == b;
    } else {
      assert (a + b)[0] == a[0];
      assert (a + b)[1..] == a[1..] + b;
      KeepNonEmptyAppend(a[1..], b);
      if a[0] != "" {
        assert KeepNonEmpty(a + b) == [a[0]] + KeepNonEmpty(a[1..] + b);
        assert KeepNonEmpty(a) == [a[0]] + KeepNonEmpty(a[1..]);
      }
    }
  }

  /** Splitting at one separator splits the two sides independently. */
  lemma {:induction false} SplitAppend(a: string, sep: char, b: string)
    ensures Split(a + [sep] + b, sep) == Split(a, sep) + Split(b, sep)
    decreases |a|
  {
    var i := IndexOf(a, sep);
    BeforeIndexOf(a, sep);
    if i == |a| {
      assert a[..i] == a;
      SplitFirst(a, sep, b);
      SplitNoSep(a, sep);
    } else {
      var head, tail := a[..i], a[i + 1..];
      assert a == head + [sep] + tail;
      SplitAppend(tail, sep, b);
      SplitAppendAfterFirst(head, tail, sep, b);
    }
  }

  /** The inductive step of SplitAppend: a separator-free first piece is split off on both sides. */
  lemma SplitAppendAfterFirst(head: string, tail: string, sep: char, b: string)
    requires sep !in head
    requires Split(tail + [sep] + b, sep) == Split(tail, sep) + Split(b, sep)
    ensures Split(head + [sep] + tail + [sep] + b, sep) == Split(head + [sep] + tail, sep) + Split(b, sep)
  {
    var rest := tail + [sep] + b;
    var x, y := Split(tail, sep), Split(b, sep);
    assert Split(head + [sep] + tail + [sep] + b, sep) == [head] + (x + y) by {
      assert head + [sep] + tail + [sep] + b == head + [sep] + rest;
      SplitFirst(head, sep, rest);
    }
    assert Split(head + [sep] + tail, sep) == [head] + x by {
      SplitFirst(head, sep, tail);
    }
    assert [head] + (x + y) == ([head] + x) + y;
  }

  /** Each line is normalised on its own: the rows of two texts joined by a line break are the rows of each, in order. */
  lemma NormalizeAppend(a: string, b: string)
    ensures NormalizeNote(a + "\n" + b) == NormalizeNote(a) + NormalizeNote(b)
  {
    SplitAppend(a, '\n', b);
    var la, lb := Split(a, '\n'), Split(b, '\n');
    assert a + "\n" + b == a + ['\n'] + b;
    assert CleanLines(la + lb) == CleanLines(la) + CleanLines(lb);
    KeepNonEmptyAppend(CleanLines(la), CleanLines(lb));
  }

  /** A text with no row left (empty, blank or markers only) deletes the key on save. */
  lemma BlankInputDeletes(m: NotesMap, key: string, input: string)
    requires forall k :: 0 <= k < |Split(input, '\n')| ==> CleanLine(Split(input, '\n')[k]) == ""
    ensures key !in SaveEntry(m, key, NormalizeNote(input))
  {
    KeepNonEmptyOfBlanks(CleanLines(Split(input, '\n')));
  }

  lemma {:induction false} KeepNonEmptyOfBlanks(xs: seq<string>)
    requires forall k :: 0 <= k < |xs| ==> xs[k] == ""
    ensures KeepNonEmpty(xs) == []
  {
    if |xs| > 0 {
      KeepNonEmptyOfBlanks(xs[1..]);
    }
  }

  lemma {:induction false} KeepNonEmptyOfNonEmpty(xs: seq<string>)
    requires forall k :: 0 <= k < |xs| ==> xs[k] != ""
    ensures KeepNonEmpty(xs) == xs
  {
    if |xs| > 0 {
      KeepNonEmptyOfNonEmpty(xs[1..]);
    }
  }

  /**
    Re-saving the text the editor shows for stored rows gives back the same rows, provided
    no row begins with a marker character.
  */
  lemma NormalizeJoin(rows: seq<string>)
    requires forall k :: 0 <= k < |rows| ==> IsCleanRow(rows[k]) && !IsMarker(rows[k][0])
    ensures NormalizeNote(Join(rows, '\n')) == rows
  {
    if |rows| == 0 {
      NormalizeEmpty();
    } else {
      var text := Join(rows, '\n');
      assert Split(text, '\n') == rows by { SplitJoin(rows, '\n'); }
      assert KeepNonEmpty(CleanLines(rows)) == rows by { CleanRowsAreFixed(rows); }
    }
  }

  lemma CleanRowsAreFixed(rows: seq<string>)
    requires forall k :: 0 <= k < |rows| ==> IsCleanRow(rows[k]) && !IsMarker(rows[k][0])
    ensures KeepNonEmpty(CleanLines(rows)) == rows
  {
    var cleaned := CleanLines(rows);
    forall k | 0 <= k < |rows| ensures cleaned[k] == rows[k] {
      CleanRowIsFixed(rows[k]);
    }
    assert cleaned == rows;
    KeepNonEmptyOfNonEmpty(rows);
  }

  /** An empty editor saves no rows. */
  lemma NormalizeEmpty()
    ensures NormalizeNote("") == []
  {
    assert Split("", '\n') == [""] by { SplitNoSep("", '\n'); }
    assert CleanLines([""]) == [""] by { assert CleanLine("") == ""; }
    assert KeepNonEmpty([""]) == [];
  }

  lemma CleanRowIsFixed(row: string)
    requires IsCleanRow(row) && !IsMarker(row[0])
    ensures CleanLine(row) == row
  {
    assert StripMarker(row) == row;
    TrimOfTrimmed(row);
  }

  /** Opening a day's notes and saving without a change leaves the map as it was (for marker-free rows). */
  lemma ResaveUnchanged(m: NotesMap, key: string)
    requires key in m && |m[key]| > 0
    requires forall k :: 0 <= k < |m[key]| ==> IsCleanRow(m[key][k]) && !IsMarker(m[key][k][0])
    ensures SaveEntry(m, key, NormalizeNote(Join(EntryOf(m, key), '\n'))) == m
  {
    NormalizeJoin(m[key]);
    SaveStoredRows(m, key);
  }

  lemma SaveStoredRows(m: NotesMap, key: string)
    requires key in m && |m[key]| > 0
    ensures SaveEntry(m, key, m[key]) == m
  {
    assert m[key := m[key]] == m;
  }

  /** A row that still begins with a marker loses it on the next save: "- - x" is stored as "- x", and re-saved as "x". */
  lemma ResaveStripsNestedMarker(x: string)
    requires IsCleanRow(x)
    ensures NormalizeNote("- - " + x) == ["- " + x]
    ensures NormalizeNote(Join(NormalizeNote("- - " + x), '\n')) == [x] != ["- " + x]
  {
    NormalizeSingleLine("- - " + x, "- " + x);
    NormalizeSingleLine("- " + x, x);
    assert |[x][0]| != |("- " + x)|;
  }

  lemma NormalizeSingleLine(line: string, tail: string)
    requires '\n' !in line && |line| >= 2 && line[0] == '-' && line[1] == ' '
    requires tail == line[2..] && IsCleanRow(tail)
    ensures NormalizeNote(line) == [tail]
  {
    var rest := line[1..];
    assert rest == [' '] + tail;
    assert TrimStart(rest) == tail by {
      assert rest[1..] == tail;
      assert TrimStart(tail) == tail;
    }
    TrimOfTrimmed(tail);
    NormalizeLine(line);
  }

  /** A text without line breaks is one line: it saves as that line cleaned, or as no row when nothing is left. */
  lemma NormalizeLine(line: string)
    requires '\n' !in line
    ensures NormalizeNote(line) == if CleanLine(line) == "" then [] else [CleanLine(line)]
  {
    var c := CleanLine(line);
    assert Split(line, '\n') == [line] by {
      SplitNoSep(line, '\n');
    }
    assert CleanLines([line]) == [c];
    KeepNonEmptySingle(c);
  }

  lemma KeepNonEmptySingle(c: string)
    ensures KeepNonEmpty([c]) == if c == "" then [] else [c]
  {
    assert [c][1..] == [];
  }

  /** Only a marker in the first column is removed: an indented "- x" keeps its marker and loses the indentation. */
  lemma IndentedMarkerKept(x: string)
    requires IsCleanRow(x)
    ensures CleanLine("  - " + x) == "- " + x
  {
    var line, kept := "  - " + x, "- " + x;
    IndentationTrimmed(x);
    CleanLineIsTrim(line);
    TrimAfterTrimStart(line);
    TrimOfTrimmed(kept);
  }

  /** Leading spaces are skipped up to the first other character. */
  lemma IndentationTrimmed(x: string)
    ensures TrimStart("  - " + x) == "- " + x
  {
    var line, kept := "  - " + x, "- " + x;
    assert line[1..] == " " + kept;
    assert line[1..][1..] == kept;
    assert TrimStart(kept) == kept;
    assert TrimStart(line[1..]) == TrimStart(kept);
  }

  /** On a well-formed map the with-note flag is plain key membership; after a save it says whether rows were left. */
  lemma HasNoteAfterEdit(m: NotesMap, key: string, input: string)
    ensures WellFormed(m) ==> forall k :: HasNote(m, k) <==> k in m
    ensures HasNote(SaveEntry(m, key, NormalizeNote(input)), key) <==> |NormalizeNote(input)| > 0
    ensures !HasNote(ClearEntry(m, key), key)
  {
  }
}

=== FILE: text_util.dfy ===
/**
  The string primitives the core relies on: String.prototype.split with a one-character
  separator, Array.prototype.join, String(n) for a non-negative integer, Number(s) on a
  decimal digit string, padStart, and trim with JavaScript's set of white-space characters.
*/
module TextUtil {

  // ---------------------------------------------------------------------------
  // split and join

  /** Index of the first `sep` in s, or |s| when there is none. */
  function IndexOf(s: string, sep: char): (i: nat)
    ensures i <= |s|
    ensures i < |s| ==> s[i] == sep
  {
    if |s| == 0 || s[0] == sep then 0 else 1 + IndexOf(s[1..], sep)
  }

  /** The text before the first separator holds none. */
  lemma {:induction false} BeforeIndexOf(s: string, sep: char)
    ensures sep !in s[..IndexOf(s, sep)]
  {
    if |s| > 0 && s[0] != sep {
      BeforeIndexOf(s[1..], sep);
      assert s[..IndexOf(s, sep)] == [s[0]] + s[1..][..IndexOf(s[1..], sep)];
    }
  }

  /** s.split(sep): the pieces between occurrences of sep; one more piece than there are separators. */
  function Split(s: string, sep: char): (parts: seq<string>)
    ensures |parts| >= 1
    decreases |s|
  {
    var i := IndexOf(s, sep);
    if i == |s| then [s] else [s[..i]] + Split(s[i + 1..], sep)
  }

  /** No piece of a split holds the separator. */
  lemma {:induction false} SplitPiecesFree(s: string, sep: char)
    ensures forall k :: 0 <= k < |Split(s, sep)| ==> sep !in Split(s, sep)[k]
    decreases |s|
  {
    var i := IndexOf(s, sep);
    BeforeIndexOf(s, sep);
    if i < |s| {
      SplitPiecesFree(s[i + 1..], sep);
    } else {
      assert s[..i] == s;
    }
  }

  /** xs.join(sep): the pieces in order, a separator between each two neighbours. */
  function Join(xs: seq<string>, sep: char): (r: string)
    ensures |xs| == 0 ==> r == ""
    ensures |xs| > 0 ==> |xs[0]| <= |r| && r[..|xs[0]|] == xs[0]
    ensures |xs| > 0 ==> |xs[|xs| - 1]| <= |r| && r[|r| - |xs[|xs| - 1]|..] == xs[|xs| - 1]
    ensures |xs| > 1 ==> |xs[0]| < |r| && r[|xs[0]|] == sep
  {
    if |xs| == 0 then ""
    else if |xs| == 1 then xs[0]
    else xs[0] + [sep] + Join(xs[1..], sep)
  }

  lemma SplitNoSep(a: string, sep: char)
    requires sep !in a
    ensures Split(a, sep) == [a]
  {
  }

  lemma SplitFirst(a: string, sep: char, b: string)
    requires sep !in a
    ensures Split(a + [sep] + b, sep) == [a] + Split(b, sep)
  {
    var s := a + [sep] + b;
    var i := IndexOf(s, sep);
    BeforeIndexOf(s, sep);
    assert s[|a|] == sep;
    assert i == |a|;
    assert s[..i] == a && s[i + 1..] == b;
  }

  /** Splitting a join gives the pieces back, when no piece holds the separator. */
  lemma {:induction false} SplitJoin(xs: seq<string>, sep: char)
    requires |xs| >= 1
    requires forall k :: 0 <= k < |xs| ==> sep !in xs[k]
    ensures Split(Join(xs, sep), sep) == xs
  {
    if |xs| == 1 {
      SplitNoSep(xs[0], sep);
    } else {
      var rest := xs[1..];
      assert forall k :: 0 <= k < |rest| ==> sep !in rest[k] by {
        forall k | 0 <= k < |rest| ensures sep !in rest[k] {
          assert rest[k] == xs[k + 1];
        }
      }
      SplitJoin(rest, sep);
      assert Join(xs, sep) == xs[0] + [sep] + Join(rest, sep);
      SplitFirst(xs[0], sep, Join(rest, sep));
      assert xs == [xs[0]] + rest;
    }
  }

  // ---------------------------------------------------------------------------
  // decimal numbers

  predicate IsDigit(c: char) {
    '0' <= c <= '9'
  }

  predicate AllDigits(s: string) {
    forall k :: 0 <= k < |s| ==> IsDigit(s[k])
  }

  function DigitChar(n: nat): (c: char)
    requires n < 10
    ensures IsDigit(c)
  {
    ['0', '1', '2', '3', '4', '5', '6', '7', '8', '9'][n]
  }

  function DigitValue(c: char): (n: nat)
    requires IsDigit(c)
    ensures n < 10
  {
    (c as int - '0' as int) as nat
  }

  /** String(n) for a non-negative integer n: its decimal digits, without leading zeros. */
  function NatToString(n: nat): (s: string)
    ensures |s| >= 1 && AllDigits(s)
    ensures |s| > 1 ==> s[0] != '0'
  {
    if n < 10 then [DigitChar(n)] else NatToString(n / 10) + [DigitChar(n % 10)]
  }

  /** The value of a decimal digit string, as Number(s) reads it ("" reads as 0 here). */
  function DigitsValue(s: string): nat
    requires AllDigits(s)
  {
    if |s| == 0 then 0 else 10 * DigitsValue(s[..|s| - 1]) + DigitValue(s[|s| - 1])
  }

  lemma {:induction false} DigitsOfNat(n: nat)
    ensures DigitsValue(NatToString(n)) == n
  {
    var s := NatToString(n);
    if n < 10 {
      assert s[..|s| - 1] == [];
    } else {
      DigitsOfNat(n / 10);
      assert s[..|s| - 1] == NatToString(n / 10);
    }
  }

  lemma DigitRoundTrip(c: char)
    requires IsDigit(c)
    ensures DigitChar(DigitValue(c)) == c
  {
  }

  /** A digit run that does not start with '0' has a positive value. */
  lemma {:induction false} LeadingDigitPositive(s: string)
    requires |s| >= 1 && AllDigits(s) && s[0] != '0'
    ensures DigitsValue(s) >= 1
  {
    if |s| > 1 {
      LeadingDigitPositive(s[..|s| - 1]);
    }
  }

  /** A digit run without a leading zero is String of its value: String(n) is the only such text for n. */
  lemma {:induction false} CanonicalDigits(s: string)
    requires |s| >= 1 && AllDigits(s) && (|s| > 1 ==> s[0] != '0')
    ensures s == NatToString(DigitsValue(s))
  {
    var v := DigitsValue(s);
    var last := s[|s| - 1];
    DigitRoundTrip(last);
    if |s| > 1 {
      var p := s[..|s| - 1];
      CanonicalDigits(p);
      LeadingDigitPositive(p);
      assert v / 10 == DigitsValue(p) && v % 10 == DigitValue(last);
      assert s == p + [last];
    } else {
      assert s[..0] == "";
      assert s == [last];
    }
  }

  /** A leading zero does not change the value of a digit string. */
  lemma {:induction false} LeadingZero(s: string)
    requires AllDigits(s)
    ensures DigitsValue(['0'] + s) == DigitsValue(s)
  {
    if |s| > 0 {
      var t := ['0'] + s;
      assert t[..|t| - 1] == ['0'] + s[..|s| - 1];
      LeadingZero(s[..|s| - 1]);
    }
  }

  /** s.padStart(width, "0"): zeros in front of s up to the width; s itself when already that long. */
  function PadStartZero(s: string, width: nat): (r: string)
    ensures |r| == if |s| < width then width else |s|
    ensures |s| < width ==> r == seq(width - |s|, _ => '0') + s
    ensures |s| >= width ==> r == s
    decreases width - |s|
  {
    if |s| < width then
      var r := PadStartZero(['0'] + s, width);
      assert seq(width - |s| - 1, _ => '0') + (['0'] + s) == seq(width - |s|, _ => '0') + s;
      r
    else s
  }

  // ---------------------------------------------------------------------------
  // white space and trim

  /** The characters JavaScript's \s and String.prototype.trim treat as white space or line terminators. */
  predicate IsWhitespace(c: char) {
    c == ' ' || c == '\t' || c == '\n' || c == '\U{B}' || c == '\U{C}' || c == '\r'
    || c == '\U{A0}' || c == '\U{1680}' || ('\U{2000}' <= c <= '\U{200A}')
    || c == '\U{2028}' || c == '\U{2029}' || c == '\U{202F}' || c == '\U{205F}'
    || c == '\U{3000}' || c == '\U{FEFF}'
  }

  function TrimStart(s: string): (r: string)
    ensures |r| <= |s| && r == s[|s| - |r|..]
    ensures |r| > 0 ==> !IsWhitespace(r[0])
    ensures forall k :: 0 <= k < |s| - |r| ==> IsWhitespace(s[k])
  {
    if |s| > 0 && IsWhitespace(s[0]) then TrimStart(s[1..]) else s
  }

  function TrimEnd(s: string): (r: string)
    ensures |r| <= |s| && r == s[..|r|]
    ensures |r| > 0 ==> !IsWhitespace(r[|r| - 1])
    ensures forall k :: |r| <= k < |s| ==> IsWhitespace(s[k])
  {
    if |s| > 0 && IsWhitespace(s[|s| - 1]) then TrimEnd(s[..|s| - 1]) else s
  }

  /** The number of white-space characters s starts with. */
  function LeadingSpace(s: string): (n: nat)
    ensures n <= |s|
  {
    |s| - |TrimStart(s)|
  }

  /**
    s.trim(): s without leading and trailing white space. The result is the slice of s that
    starts after the leading white space; everything before and after that slice is white space.
  */
  function Trim(s: string): (r: string)
    ensures |r| <= |s|
    ensures LeadingSpace(s) + |r| <= |s| && r == s[LeadingSpace(s)..LeadingSpace(s) + |r|]
    ensures forall k :: 0 <= k < LeadingSpace(s) ==> IsWhitespace(s[k])
    ensures forall k :: LeadingSpace(s) + |r| <= k < |s| ==> IsWhitespace(s[k])
    ensures |r| > 0 ==> !IsWhitespace(r[0]) && !IsWhitespace(r[|r| - 1])
    ensures forall c :: c in r ==> c in s
  {
    var t := TrimStart(s);
    var r := TrimEnd(t);
    TrimSlice(s, t, r);
    r
  }

  /** The end trimmed off the start-trimmed string is white space of the original. */
  lemma TrimSlice(s: string, t: string, r: string)
    requires |t| <= |s| && t == s[|s| - |t|..]
    requires |r| <= |t| && r == t[..|r|]
    requires forall k :: |r| <= k < |t| ==> IsWhitespace(t[k])
    ensures r == s[|s| - |t|..|s| - |t| + |r|]
    ensures forall k :: |s| - |t| + |r| <= k < |s| ==> IsWhitespace(s[k])
    ensures forall c :: c in r ==> c in s
  {
    var i := |s| - |t|;
    forall k | i + |r| <= k < |s|
      ensures IsWhitespace(s[k])
    {
      assert s[k] == t[k - i];
    }
  }

  /** Trimming the start again changes nothing, so trim ignores a TrimStart done before it. */
  lemma TrimAfterTrimStart(s: string)
    ensures Trim(TrimStart(s)) == Trim(s)
  {
    var t := TrimStart(s);
    assert TrimStart(t) == t;
  }

  /** A string without surrounding white space is left alone by trim. */
  lemma TrimOfTrimmed(s: string)
    requires |s| > 0 ==> !IsWhitespace(s[0]) && !IsWhitespace(s[|s| - 1])
    ensures Trim(s) == s
  {
  }

}

=== FILE: timeline.dfy ===
/**
  The flat list of active days (app.js: buildTimeline): every calendar day from the
  countdown start up to, and not including, the deadline.
*/
module Timeline {
  import opened CivilDays

  /** buildTimeline: daysBetween(start, end) consecutive days from start on, none when end is not after start. */
  method BuildTimeline(start: Date, end: Date) returns (list: seq<Date>)
    requires Valid(start) && Valid(end)
    ensures |list| == MaxZero(DaysBetween(start, end))
    ensures !Before(start, end) ==> list == []
    ensures forall i :: 0 <= i < |list| ==> Valid(list[i]) && DaysBetween(start, list[i]) == i
    ensures |list| > 0 ==> list[0] == start
    ensures forall i :: 0 < i < |list| ==> list[i] == Next(list[i - 1])
    ensures forall i :: 0 <= i < |list| ==> NotAfter(start, list[i]) && Before(list[i], end)
    ensures end !in list
  {
    var size := MaxZero(DaysBetween(start, end));
    list := [];
    var i := 0;
    while i < size
      invariant 0 <= i <= size
      invariant |list| == i
      invariant forall j :: 0 <= j < i ==> list[j] == AddDays(start, j)
    {
      var day := AddDays(start, i);
      list := list + [day];
      i := i + 1;
    }
    TimelineShape(start, end, list);
  }

  /** The list of the first MaxZero(daysBetween(start, end)) days from start has the shape buildTimeline promises. */
  lemma TimelineShape(start: Date, end: Date, list: seq<Date>)
    requires Valid(start) && Valid(end)
    requires |list| == MaxZero(DaysBetween(start, end))
    requires forall j :: 0 <= j < |list| ==> list[j] == AddDays(start, j)
    ensures !Before(start, end) ==> list == []
    ensures forall i :: 0 <= i < |list| ==> Valid(list[i]) && DaysBetween(start, list[i]) == i
    ensures |list| > 0 ==> list[0] == start
    ensures forall i :: 0 < i < |list| ==> list[i] == Next(list[i - 1])
    ensures forall i :: 0 <= i < |list| ==> NotAfter(start, list[i]) && Before(list[i], end)
    ensures end !in list
  {
    forall j | 0 <= j < |list|
      ensures Valid(list[j]) && DaysBetween(start, list[j]) == j
      ensures NotAfter(start, list[j]) && Before(list[j], end)
    {
      assert DayNumber(list[j]) == DayNumber(start) + j;
    }
    forall j | 0 < j < |list|
      ensures list[j] == Next(list[j - 1])
    {
      assert AddDays(start, j) == Next(AddDays(start, j - 1));
    }
  }

  /** Every day from start up to the day before end is in the timeline, at the position of its distance from start. */
  lemma TimelineCovers(start: Date, end: Date, list: seq<Date>, d: Date)
    requires Valid(start) && Valid(end) && Valid(d)
    requires |list| == MaxZero(DaysBetween(start, end))
    requires forall i :: 0 <= i < |list| ==> Valid(list[i]) && DaysBetween(start, list[i]) == i
    requires NotAfter(start, d) && Before(d, end)
    ensures DaysBetween(start, d) < |list| && list[DaysBetween(start, d)] == d
  {
    var k := DaysBetween(start, d);
    DayNumberInjective(list[k], d);
  }
}

=== FILE: wrappers.dfy ===
/** Optional values, used where the source works with null, NaN or an absent storage entry. */
module Wrappers {

  datatype Option<+T> = None | Some(value: T)

}
